=== FILE: README.md ===
# Bonfidanet client core, modelled in Dafny

Bonfidanet is a C# client for the Bonfida API of the Serum DEX. This
project models the client's core:

- the REST client (`BonfidaClient`). This covers the choice of base
  address, the subscribe and unsubscribe requests, the fixed GET paths of
  the market-data queries, and the mapping from an HTTP response to a
  `RequestResult<T>`.
- the base WebSocket `StreamingClient`. It connects, then reads while the
  socket is Open. A Close frame is answered with a Normal Closure (status
  1000, section 7.4.1 of RFC 6455). Any other receive goes through a
  32768-byte buffer and is sliced to the received count before it reaches
  the handler. The end-of-message flag is never read, so a message longer
  than the buffer reaches the handler in several pieces.
- the trade streaming client (`BonfidaStreamingClient`). Subscribing asks
  for a dedicated URL on channel "DEX" and keeps the client id, which is
  the URL's last piece after splitting on `/ws/`. It then stores the
  address and callback, connects and listens. The client owns one socket.
  A `ClientWebSocket` first rejects an address that is not an absolute
  ws/wss URI, leaving the socket unstarted. Past that check it connects at
  most once, so only the first such subscribe can connect. Each payload is decoded into
  a trade and passed to the stored callback. Unsubscribing posts the stored
  client id.

Modules:

| module | file | contents |
|---|---|---|
| `Wrappers` | `wrappers.dfy` | `Option`, where `None` is C# `null` |
| `DotNetStrings` | `dotnet_strings.dfy` | the .NET semantics of `Split(string)`, `Replace`, `Join` and `IsNullOrWhiteSpace` |
| `Models` | `models.dfy` | bytes, `Trade`, `Subscription`, HTTP request and response shapes |
| `RequestResults` | `request_result.dfy` | `RequestResult<T>` and its constructor |
| `BonfidaClient` | `bonfida_client.dfy` | the REST client |
| `StreamingClient` | `streaming_client.dfy` | the read loop over a scripted socket |
| `BonfidaStreamingClient` | `bonfida_streaming_client.dfy` | subscribe, message handling, unsubscribe |

The outside world is passed in as values.

- A socket is a script: the state it reports, plus the frames its receive
  calls will return, in order. A frame is one completed receive: at most a
  buffer's worth of bytes, plus the state the transport reports once that
  receive completes.
- The network maps an address to the peer's script. `None` means
  connecting fails.
- JSON decoding is a function. `None` means the deserializer throws, and
  `Some(None)` is a `null` result.
- `new Uri(url)` is a predicate saying whether the constructor accepts the
  URL. A second predicate says whether `ConnectAsync` accepts it as an
  absolute ws/wss URI.
- A payload handler returns `None` when it throws. That ends the
  fire-and-forget read task.

## Model

| member | source | states |
|---|---|---|
| BonfidaClient.BaseAddress | Bonfidanet.Client/BonfidaClient.cs:54-59 | An injected HTTP client keeps its own address. Otherwise the base is the WebSocket-subscription host exactly when `subscriptions` is set, and the API host exactly when it is not. |
| BonfidaClient.DefaultBaseAddress | Bonfidanet.Client/BonfidaClient.cs:66-71 | The constructor without the flag behaves like the flagged constructor with the flag off. |
| BonfidaClient.TemplateSplit | Bonfidanet.Client/BonfidaClient.cs:31 | The subscribe template contains exactly one `x`, between the fixed halves `{"channel": "` and `"}`. |
| BonfidaClient.SubscribeBody | Bonfidanet.Client/BonfidaClient.cs:134 | Replacing `x` in the template gives exactly `{"channel": "` + channel + `"}` for every channel, including channels that themselves contain `x`: inserted text is not rescanned. |
| BonfidaClient.SubscribeRequest | Bonfidanet.Client/BonfidaClient.cs:132-138 | Subscribing is a POST to `subscribe` whose body names the channel. |
| BonfidaClient.UnsubscribeRequest | Bonfidanet.Client/BonfidaClient.cs:145-150 | Unsubscribing is a POST without a body to a path that starts with `unsubscribe/` and continues with exactly the client id. A null id gives the empty string. |
| BonfidaClient.QueryPath | Bonfidanet.Client/BonfidaClient.cs:153-203 | Each query's path is its fixed route followed by exactly its argument: `trades/` + market name, `trades/address/` + market address, `volumes/` + market name, `orderbooks/` + market name. The argument-free queries use `pairs` and `trades/all/recent`. |
| BonfidaClient.QueryRequest | Bonfidanet.Client/BonfidaClient.cs:121-206 | Every market-data query is a body-less GET on its path string. The query can be read back from that string exactly when it is routable. Every query is routable except a by-name query whose market name is `all/recent` or starts with `address/`. Names like `ETH/USDT` are routable. |
| BonfidaClient.ParsePath | Bonfidanet.Client/BonfidaClient.cs:152-206 | Reading a path string literally back into a query: every string it accepts is the path string of the query it returns. |
| BonfidaClient.PathRoundTrip | Bonfidanet.Client/BonfidaClient.cs:153-203 | A query is recovered from its path string iff it is routable. The only collisions between the six path-string shapes are a by-name path that equals `trades/all/recent` or continues with `address/`. |
| BonfidaClient.MarketNamePathRoundTrip | Bonfidanet.Client/BonfidaClient.cs:162-165 | `trades/` + name reads back as the by-name query with that name, iff the name is not `all/recent` and does not start with `address/`. |
| BonfidaClient.SlashedMarketNameRoundTrips | Bonfidanet.Client.Test/ClientTest.cs:91 | The BASE/QUOTE market name `ETH/USDT` that the client's tests query reads back from its path unchanged. |
| BonfidaClient.PathsCollideOnSlashes | Bonfidanet.Client/BonfidaClient.cs:162-184 | With a `/` in the market name the routes do collide: `address/a` reaches the by-address endpoint, and `all/recent` reaches the all-recent endpoint. |
| BonfidaClient.HandleResponse | Bonfidanet.Client/BonfidaClient.cs:101-113 | A non-success status gives a data-less result. Otherwise a null envelope gives a data-less result, an envelope gives its `Data`, and a malformed body throws. The result is successful iff the status is 2xx and the data is non-null. Status and reason are copied. |
| BonfidaClient.FailedStatusIgnoresBody | Bonfidanet.Client/BonfidaClient.cs:103-104 | For a non-success status, the body has no influence on the result. |
| BonfidaClient.EnvelopeFlagIgnored | Bonfidanet.Client/BonfidaClient.cs:108-112 | The envelope's own `Success` flag has no influence on the result. |
| RequestResults.NewRequestResult | Bonfidanet.Client/Models/RequestResult.cs:66-74 | Status code, reason and data are copied. The HTTP flag is the response's 2xx bit, the handled flag holds iff the data is non-null, and `WasSuccessful` holds iff both hold. |
| RequestResults.RequestResult.WasSuccessful | Bonfidanet.Client/Models/RequestResult.cs:32 | A result is successful iff both the HTTP flag and the handled flag are set. |
| RequestResults.NoDataIsNeverSuccessful | Bonfidanet.Client/Models/RequestResult.cs:66-74 | A result built with the default (null) data is never successful. |
| RequestResults.WithDataSuccessFollowsStatus | Bonfidanet.Client/Models/RequestResult.cs:32 | With data present, `WasSuccessful` is decided by the HTTP status alone. |
| DotNetStrings.IndexOf | src/Bonfidanet.Client/BonfidaStreamingClient.cs:71 | Finds the first occurrence of the separator, with none earlier, and returns `None` iff the separator does not occur. This is the scan that `Split` performs. |
| DotNetStrings.Split | src/Bonfidanet.Client/BonfidaStreamingClient.cs:71 | There is at least one piece. Joining the pieces with the separator gives back the string, and no piece contains the separator. There is exactly one piece iff the separator does not occur. Every cut is leftmost: no occurrence starts inside a piece and runs on into the separator after it. |
| DotNetStrings.SplitIsUnique | src/Bonfidanet.Client/BonfidaStreamingClient.cs:71 | The properties in `Split`'s contract determine the pieces: any pieces that have them are exactly `Split`'s result. |
| DotNetStrings.LastPieceIsSeparatorFreeSuffix | src/Bonfidanet.Client/BonfidaStreamingClient.cs:71 | `Split(sep)[^1]` is a suffix of the string that contains no separator. It is the whole string iff the separator is absent. |
| DotNetStrings.Replace | Bonfidanet.Client/BonfidaClient.cs:134 | A string without the old value is left unchanged. |
| DotNetStrings.IsNullOrWhiteSpace | src/Bonfidanet.Client/BonfidaStreamingClient.cs:69 | Null is blank. A string is blank iff every character is white space, so the empty string is blank. |
| DotNetStrings.AllWhiteSpace | src/Bonfidanet.Client/BonfidaStreamingClient.cs:69 | The character scan answers true iff no character is outside the `Char.IsWhiteSpace` set. |
| StreamingClient.Init | Bonfidanet.Client/Core/WebSocket/StreamingClient.cs:45-49 | Connecting succeeds iff there is a peer at the address. The socket is then Open and will receive exactly the peer's frames. |
| StreamingClient.ReceivedCount | Bonfidanet.Client/Core/WebSocket/StreamingClient.cs:73-74 | The count a receive reports is the number of bytes it wrote, and never more than the 32768-byte buffer. |
| StreamingClient.Payload | Bonfidanet.Client/Core/WebSocket/StreamingClient.cs:71-83 | The payload is the fresh buffer sliced to the received count, which is exactly the bytes this receive wrote. It never exceeds 32768 bytes. |
| StreamingClient.Receives | Bonfidanet.Client/Core/WebSocket/StreamingClient.cs:71-74 | A message arrives as receives that together deliver exactly its bytes. Every receive but the last is a full buffer and leaves the socket Open. There is more than one receive iff the message is longer than 32768 bytes. |
| StreamingClient.StepFor | Bonfidanet.Client/Core/WebSocket/StreamingClient.cs:76-84 | A frame leads to a close iff it is a Close frame, and that close is Normal Closure with an empty description. Any other frame hands exactly its payload to the handler: the step is the handler's result on that payload, and there is no step iff the handler throws. |
| StreamingClient.ReadNextMessage | Bonfidanet.Client/Core/WebSocket/StreamingClient.cs:69-85 | One read consumes exactly one frame and takes the step `StepFor` gives for it. It throws iff the handler throws, which only a data frame can cause. After a Close frame the socket is Closed. Otherwise the socket takes the state the transport reported. |
| StreamingClient.Listen | Bonfidanet.Client/Core/WebSocket/StreamingClient.cs:55-62 | Nothing is read from a socket that is not Open. A loop that stops normally leaves the socket not Open. A loop still waiting is Open with nothing left to receive. |
| StreamingClient.StartListening | Bonfidanet.Client/Core/WebSocket/StreamingClient.cs:55-62 | The `while (State == Open)` loop, run step by step, ends in the same run as the recursive reference `Listen`. |
| StreamingClient.LeftoverIsUnread | Bonfidanet.Client/Core/WebSocket/StreamingClient.cs:55-62 | The frames left after the loop are exactly the suffix it did not receive. |
| StreamingClient.StopsOnlyAtNonOpen | Bonfidanet.Client/Core/WebSocket/StreamingClient.cs:57-60 | A loop that stopped because the state was not Open, after receiving something, stopped right after a Close frame or a receive that left the socket non-Open. So the loop keeps receiving while the reported state is Open. |
| StreamingClient.OneStepPerFrame | Bonfidanet.Client/Core/WebSocket/StreamingClient.cs:55-85 | Every received frame yields one step, except the frame whose handler threw. |
| StreamingClient.StepAt | Bonfidanet.Client/Core/WebSocket/StreamingClient.cs:55-85 | Every step of the loop at position i is the one the i-th received frame produces. |
| StreamingClient.FaultAt | Bonfidanet.Client/Core/WebSocket/StreamingClient.cs:55-85 | A loop ended by a throwing handler stopped at the frame just after its last step, and that frame's handler threw. |
| StreamingClient.StepsFollowFrames | Bonfidanet.Client/Core/WebSocket/StreamingClient.cs:55-85 | The i-th step is the one the i-th received frame produces. A faulted loop stopped at a frame whose handler threw. |
| StreamingClient.ReceivesOnlyWhileOpenAt | Bonfidanet.Client/Core/WebSocket/StreamingClient.cs:57-60 | If the loop received past frame i, then frame i was not a Close frame and the transport reported Open after it. |
| StreamingClient.ReceivesOnlyWhileOpen | Bonfidanet.Client/Core/WebSocket/StreamingClient.cs:57-60 | Every receive of a run but the last was a non-Close frame that left the socket Open. |
| StreamingClient.CloseIsLast | Bonfidanet.Client/Core/WebSocket/StreamingClient.cs:55-85 | Every step before the last handled a payload. A close step ends the loop with the socket Closed. |
| StreamingClient.DataThenClose | Bonfidanet.Client/Core/WebSocket/StreamingClient.cs:55-85 | N accepted data frames followed by a Close frame give exactly N handler calls, in receive order, and then one Normal Closure. The socket is then Closed and no later frame is received. |
| StreamingClient.DataThenStateClosed | Bonfidanet.Client/Core/WebSocket/StreamingClient.cs:55-85 | A data frame after which the transport reports Closed is handled once, and the loop stops without another receive. |
| StreamingClient.HandledStepsCarryBytes | Bonfidanet.Client/Core/WebSocket/StreamingClient.cs:71-83 | The payloads handed over for accepted data frames are, in order, exactly the bytes those receives wrote. |
| StreamingClient.MessageReachesHandlerInPieces | Bonfidanet.Client/Core/WebSocket/StreamingClient.cs:55-85 | A text message followed by Close gives one handler call per receive, and the payloads together make up the message. A message longer than 32768 bytes is therefore handled as at least two separate payloads. |
| BonfidaStreamingClient.ClientIdOf | src/Bonfidanet.Client/BonfidaStreamingClient.cs:71 | The client id is a suffix of the URL that contains no `/ws/`. It is the whole URL iff the URL contains no `/ws/`. |
| BonfidaStreamingClient.ClientIdAfterMarker | src/Bonfidanet.Client/BonfidaStreamingClient.cs:71 | A URL `prefix/ws/id` yields `id`, provided `id` has no marker and no marker occurs within `prefix` + `/ws`. |
| BonfidaStreamingClient.ExampleClientId | src/Bonfidanet.Client/BonfidaStreamingClient.cs:71 | `wss://host/ws/abc123` yields the client id `abc123`. |
| BonfidaStreamingClient.RepeatedMarkerClientId | src/Bonfidanet.Client/BonfidaStreamingClient.cs:71 | The scan cuts at the leftmost `/ws/`, so `wss://h/ws/ws/` yields the client id `ws/`. |
| BonfidaStreamingClient.SubscribeTrades | src/Bonfidanet.Client/BonfidaStreamingClient.cs:66-75 | The subscribe request always names the channel "DEX". A null reply or a null/empty/white-space URL leaves every field unchanged and connects nowhere. Otherwise the client id is set from the URL. A URL the `Uri` constructor rejects changes only the client id. A valid URL also stores the address and callback. The outcome is then exact: rejected without starting the socket if the URL is not an absolute ws/wss URI; else refused if the socket was started before; else listening on the peer at the URL if there is one, else a failed connect. The socket counts as started iff it was before or a connect got past the scheme check. |
| BonfidaStreamingClient.TradeSubscribeRequest | src/Bonfidanet.Client/BonfidaStreamingClient.cs:68 | Every subscribe sends a POST to `subscribe` with the exact body `{"channel": "DEX"}`, whatever the reply. |
| BonfidaStreamingClient.LastSubscribeWins | src/Bonfidanet.Client/BonfidaStreamingClient.cs:71-74 | After two subscribes, where the second has a usable URL, the client id, address and callback are the second one's, whatever the first did. The socket is started iff it was after the first or the second URL passes the scheme check. |
| BonfidaStreamingClient.SecondConnectRefused | Bonfidanet.Client/Core/WebSocket/StreamingClient.cs:35-49 | Once a subscribe's connect got past the scheme check, successfully or not, a later subscribe on a usable ws/wss URL is refused because the client's one socket was already started. A later URL that is not ws/wss is rejected by the scheme check instead. |
| BonfidaStreamingClient.RejectedSchemeKeepsSocket | Bonfidanet.Client/Core/WebSocket/StreamingClient.cs:35-49 | A subscribe whose URL `new Uri` accepts but whose scheme is not ws/wss leaves the socket unstarted, so a later subscribe on a ws/wss URL with a listening peer connects. |
| BonfidaStreamingClient.HandleNewMessage | src/Bonfidanet.Client/BonfidaStreamingClient.cs:53-63 | A payload causes one callback invocation, with the stored callback and the decoded trade (possibly null). This happens iff decoding succeeds and a callback is stored. |
| BonfidaStreamingClient.HandledInvocations | src/Bonfidanet.Client/BonfidaStreamingClient.cs:53-63 | Decodable frames produce exactly one invocation each, in order, with each frame's decoded trade. |
| BonfidaStreamingClient.SubscribeThenStream | src/Bonfidanet.Client/BonfidaStreamingClient.cs:66-75 | A client whose socket was never started subscribes on a usable URL. A peer that sends N decodable text frames and then Close gets exactly N callbacks, with the decoded trades in receive order. The socket ends Closed and nothing later is received. |
| BonfidaStreamingClient.OneFrameThenClosed | src/Bonfidanet.Client/BonfidaStreamingClient.cs:53-75 | One text frame after which the transport reports Closed gives exactly one callback, with its trade. |
| BonfidaStreamingClient.UnsubscribeTrades | src/Bonfidanet.Client/BonfidaStreamingClient.cs:82-85 | Unsubscribing is one body-less POST to `unsubscribe/` followed by the stored client id. It reads the client's fields and returns no new state. |
| BonfidaStreamingClient.UnsubscribeUsesSubscribedId | src/Bonfidanet.Client/BonfidaStreamingClient.cs:66-85 | After a subscribe with a non-blank URL, unsubscribing addresses the id taken from that URL. That id is a marker-free tail of the URL. |

## Left out

- Sending HTTP requests, reading response bodies, and logging: requests are returned as values, and bodies arrive already parsed.
- JSON (de)serialization: a parameter, with the throwing and `null` cases kept. Camel-case naming is a property of the serializer and is not modelled.
- Resolving a query's relative path string against the base address (in `GetAsync`): dot segments are removed and `?` or `#` ends the path, so `Volume("../pairs")` is routable as a string yet requests `/pairs`, like `AllPairs`. The round-trip lemmas are about the path strings only.
- `new Uri(url)`: a predicate on the URL. The address is kept as the URL string, so `Uri` normalization is not modelled.
- The fire-and-forget `Task.Run(StartListening)`: the read loop is modelled as running after `Init`, on its own. Calls to the client that overlap the running loop are not modelled.
- The synchronous wrappers `SubscribeTrades`, `UnsubscribeTrades` and `Get…` (`.Wait()`, `.Result`): these only block on the asynchronous versions.
- The socket transport: it is a script of completed receives. `CloseAsync` is modelled as leaving the socket Closed. Cancellation tokens and transport exceptions are not modelled. A connection that drops shows up only as the state reported after a receive.
- The `EndOfMessage` flag of a receive: the code never reads it, so a frame does not carry it. `Receives` gives the frames of one long message.
- An injected `IWebSocket` that can connect more than once: the model follows the default `ClientWebSocket`, which refuses every connect after the first one that passes its scheme check.
- The constructors: the streaming client builds its REST client with `subscriptions = true`. That is covered by `BaseAddress(true, …)`.
- A network failure inside `SubscribeAsync`: it has the same visible effect as a null reply (no field changes, no connection), so both are `ReplyUnreadable`.
- Exceptions thrown by the user's callback: the callback is opaque and is taken to return.
- `RequestResult<T>` with a value type `T`: the model treats `Data` as a nullable reference, which matches every query of the client.
- `decimal` trade fields are modelled as exact `real`s. `HttpStatusCode` is modelled as its integer value.
- DotNetStrings.Replace: the contract states only that a string without the old value is unchanged. The one-occurrence case the client uses is proved through `BonfidaClient.SubscribeBody`.

=== FILE: bonfida_client.dfy ===
/**
 * The REST client (`BonfidaClient`): choice of base address, the subscribe
 * and unsubscribe requests of the WebSocket handshake, the fixed GET paths
 * of the market-data queries, and the mapping of an HTTP response to a
 * `RequestResult`. Sending the requests and parsing JSON are not modelled:
 * the parsed body is an input.
 */
module BonfidaClient {
  import opened Wrappers
  import opened Models
  import opened DotNetStrings
  import opened RequestResults

  const ApiUri: string := "https://serum-api.bonfida.com"
  const WsApiUri: string := "https://serum-ws.bonfida.com"

  /** The subscribe body template; its `x` is replaced by the channel name. */
  const SubscriptionRequest: string := "{\"channel\": \"x\"}"

  /**
   * Base address of the client built by `BonfidaClient(subscriptions, ..,
   * httpClient)`: an injected HTTP client keeps its own address; otherwise
   * the WebSocket-subscription host when `subscriptions` is set, else the
   * API host.
   */
  function BaseAddress(subscriptions: bool, injected: Option<string>): (r: string)
    ensures injected.Some? ==> r == injected.value
    ensures injected.None? ==> (r == WsApiUri <==> subscriptions)
    ensures injected.None? ==> (r == ApiUri <==> !subscriptions)
  {
    match injected
    case Some(address) => address
    case None => if subscriptions then WsApiUri else ApiUri
  }

  /** Base address of the client built by the constructor without the flag. */
  function DefaultBaseAddress(injected: Option<string>): (r: string)
    ensures r == BaseAddress(false, injected)
  {
    injected.GetOr(ApiUri)
  }

  lemma NoExChar(a: string)
    requires forall i :: 0 <= i < |a| ==> a[i] != 'x'
    ensures !Contains(a, "x")
  {
    forall i: nat ensures !OccursAt(a, "x", i) {
      if i + 1 <= |a| {
        assert a[i..i + 1] == [a[i]];
      }
    }
  }

  /**
   * The body of `SubscribeAsync(channel)`: the template with `x` replaced,
   * which is exactly `{"channel": "` + channel + `"}` whatever the channel
   * contains (the inserted text is not rescanned).
   */
  function SubscribeBody(channel: string): (r: string)
    ensures r == "{\"channel\": \"" + channel + "\"}"
  {
    TemplateSplit();
    JoinPair("{\"channel\": \"", "\"}", channel);
    Replace(SubscriptionRequest, "x", channel)
  }

  /** The template has exactly one `x`, between the two fixed halves of the body. */
  lemma TemplateSplit()
    ensures Split(SubscriptionRequest, "x") == ["{\"channel\": \"", "\"}"]
  {
    var prefix := "{\"channel\": \"";
    var suffix := "\"}";
    assert SubscriptionRequest == prefix + "x" + suffix;
    NoExChar(prefix);
    NoExChar(suffix);
    SplitAroundSingle(prefix, "x", suffix);
  }

  /** The subscribe request: a POST to `subscribe` carrying the channel body. */
  function SubscribeRequest(channel: string): (r: HttpRequest)
    ensures r.verb == Post && r.path == "subscribe"
    ensures r.body == Some("{\"channel\": \"" + channel + "\"}")
  {
    HttpRequest(Post, "subscribe", Some(SubscribeBody(channel)))
  }

  /** The subscribe request for a channel whose body is already known in closed form. */
  lemma SubscribeRequestWithBody(channel: string, body: string)
    requires body == "{\"channel\": \"" + channel + "\"}"
    ensures SubscribeRequest(channel) == HttpRequest(Post, "subscribe", Some(body))
  {
  }

  /**
   * The unsubscribe request: a POST without body to `unsubscribe/{clientId}`;
   * C# interpolation renders a null client id as the empty string.
   */
  function UnsubscribeRequest(clientId: Option<string>): (r: HttpRequest)
    ensures r.verb == Post && r.body.None?
    ensures StartsWith(r.path, "unsubscribe/")
    ensures r.path[|"unsubscribe/"|..] == clientId.GetOr("")
  {
    HttpRequest(Post, "unsubscribe/" + clientId.GetOr(""), None)
  }

  /** The market-data queries of `IClient`, each a GET on a fixed path. */
  datatype Query =
    | AllPairs
    | RecentTradesByMarketName(marketName: string)
    | RecentTradesByMarketAddress(marketAddress: string)
    | AllRecentTrades
    | Volume(marketName: string)
    | OrderBook(marketName: string)
  {
    /**
     * The query's path string belongs to it alone: only a market name that
     * is `all/recent` or starts with `address/` spells the path string of
     * another query. Market names such as `ETH/USDT` are routable. This is
     * about the relative string handed to `GetAsync`, before it is resolved
     * against the base address.
     */
    predicate Routable() {
      match this
      case RecentTradesByMarketName(n) => n != "all/recent" && !StartsWith(n, "address/")
      case _ => true
    }
  }

  /** The path each `Get…Async` method passes to `ProcessRequest`. */
  function QueryPath(q: Query): (p: string)
    ensures q.AllPairs? ==> p == "pairs"
    ensures q.AllRecentTrades? ==> p == "trades/all/recent"
    ensures q.RecentTradesByMarketName? ==> StartsWith(p, "trades/") && p[7..] == q.marketName
    ensures q.RecentTradesByMarketAddress? ==> StartsWith(p, "trades/address/") && p[15..] == q.marketAddress
    ensures q.Volume? ==> StartsWith(p, "volumes/") && p[8..] == q.marketName
    ensures q.OrderBook? ==> StartsWith(p, "orderbooks/") && p[11..] == q.marketName
  {
    match q
    case AllPairs => "pairs"
    case RecentTradesByMarketName(n) => "trades/" + n
    case RecentTradesByMarketAddress(a) => "trades/address/" + a
    case AllRecentTrades => "trades/all/recent"
    case Volume(n) => "volumes/" + n
    case OrderBook(n) => "orderbooks/" + n
  }

  /** The GET request `ProcessRequest` sends for a query. */
  function QueryRequest(q: Query): (r: HttpRequest)
    ensures r.verb == Get && r.body.None? && r.path == QueryPath(q)
    ensures ParsePath(r.path) == Some(q) <==> q.Routable()
  {
    PathRoundTrip(q);
    HttpRequest(Get, QueryPath(q), None)
  }

  /**
   * Reads a query back from the relative path string handed to `GetAsync`:
   * the six route shapes, taken literally (no URI resolution).
   */
  function ParsePath(p: string): (r: Option<Query>)
    ensures r.Some? ==> QueryPath(r.value) == p
  {
    if p == "pairs" then Some(AllPairs)
    else if p == "trades/all/recent" then Some(AllRecentTrades)
    else if StartsWith(p, "trades/address/") then Some(RecentTradesByMarketAddress(p[15..]))
    else if StartsWith(p, "trades/") then Some(RecentTradesByMarketName(p[7..]))
    else if StartsWith(p, "volumes/") then Some(Volume(p[8..]))
    else if StartsWith(p, "orderbooks/") then Some(OrderBook(p[11..]))
    else None
  }

  /** A query is recovered from its path exactly when it is routable. */
  lemma PathRoundTrip(q: Query)
    ensures ParsePath(QueryPath(q)) == Some(q) <==> q.Routable()
  {
    var p := QueryPath(q);
    match q
    case AllPairs =>
    case AllRecentTrades =>
    case RecentTradesByMarketName(n) =>
      MarketNamePathRoundTrip(n);
    case RecentTradesByMarketAddress(a) =>
      assert p[..15] == "trades/address/";
      assert p[8] == 'd';
      assert p[15..] == a;
    case Volume(n) =>
      assert p[..8] == "volumes/";
      assert p[0] == 'v';
      assert p[8..] == n;
    case OrderBook(n) =>
      assert p[..11] == "orderbooks/";
      assert p[0] == 'o';
      assert p[11..] == n;
  }

  /** The by-name route: its path is read back as the by-name query unless it lands on another route. */
  lemma MarketNamePathRoundTrip(n: string)
    ensures ParsePath("trades/" + n) == Some(RecentTradesByMarketName(n))
        <==> n != "all/recent" && !StartsWith(n, "address/")
  {
    var p := "trades/" + n;
    assert p[0] == 't';
    assert p[..7] == "trades/";
    assert p[7..] == n;
    assert p == "trades/all/recent" <==> n == "all/recent";
    if |n| >= 8 {
      assert p[..15] == "trades/" + n[..8];
    }
    assert StartsWith(p, "trades/address/") <==> StartsWith(n, "address/");
  }

  /** A BASE/QUOTE market name, as the client's own tests use, is routable. */
  lemma SlashedMarketNameRoundTrips()
    ensures ParsePath(QueryPath(RecentTradesByMarketName("ETH/USDT"))) == Some(RecentTradesByMarketName("ETH/USDT"))
  {
    var n := "ETH/USDT";
    assert n[0] == 'E';
    PathRoundTrip(RecentTradesByMarketName(n));
  }

  /**
   * The routability condition is needed: a market name starting with
   * `address/` addresses the by-address endpoint, and the name
   * `all/recent` addresses the all-recent endpoint.
   */
  lemma PathsCollideOnSlashes(a: string)
    ensures QueryPath(RecentTradesByMarketName("address/" + a)) == QueryPath(RecentTradesByMarketAddress(a))
    ensures QueryPath(RecentTradesByMarketName("all/recent")) == QueryPath(AllRecentTrades)
  {
    assert "trades/" + ("address/" + a) == "trades/address/" + a;
  }

  /** The response envelope `RequestResponse<T>`; its `Success` flag is not consulted. */
  datatype RequestResponse<T> = RequestResponse(success: bool, data: Option<T>)

  /** What `JsonSerializer.Deserialize<RequestResponse<T>>` makes of the body. */
  datatype ParsedBody<T> = JsonNull | JsonValue(envelope: RequestResponse<T>) | JsonError

  /** A call either returns a value or throws (the exception propagates to the caller). */
  datatype Outcome<T> = Returned(value: T) | Threw

  /**
   * `HandleResponse<T>`: a non-success status gives a result without data;
   * otherwise the body is deserialized, a null envelope gives a result
   * without data, and an envelope gives a result carrying its `Data`.
   */
  function HandleResponse<T>(response: HttpResponse, body: ParsedBody<T>): (r: Outcome<RequestResult<T>>)
    ensures !IsSuccessStatusCode(response.statusCode) ==> r == Returned(NewRequestResult(response, None))
    ensures IsSuccessStatusCode(response.statusCode) && body.JsonNull? ==> r == Returned(NewRequestResult(response, None))
    ensures IsSuccessStatusCode(response.statusCode) && body.JsonValue? ==> r == Returned(NewRequestResult(response, body.envelope.data))
    ensures r.Threw? <==> IsSuccessStatusCode(response.statusCode) && body.JsonError?
    ensures r.Returned? ==> (r.value.WasSuccessful() <==>
      IsSuccessStatusCode(response.statusCode) && body.JsonValue? && body.envelope.data.Some?)
    ensures r.Returned? ==> r.value.httpStatusCode == response.statusCode && r.value.reason == response.reasonPhrase
  {
    if !IsSuccessStatusCode(response.statusCode) then Returned(NewRequestResult(response, None))
    else
      match body
      case JsonError => Threw
      case JsonNull => Returned(NewRequestResult(response, None))
      case JsonValue(envelope) => Returned(NewRequestResult(response, envelope.data))
  }

  /** A non-success response is answered without looking at the body. */
  lemma FailedStatusIgnoresBody<T>(response: HttpResponse, b1: ParsedBody<T>, b2: ParsedBody<T>)
    requires !IsSuccessStatusCode(response.statusCode)
    ensures HandleResponse(response, b1) == HandleResponse(response, b2)
  {
  }

  /** The envelope's own `Success` flag does not influence the result. */
  lemma EnvelopeFlagIgnored<T>(response: HttpResponse, data: Option<T>)
    ensures HandleResponse(response, JsonValue(RequestResponse(false, data)))
         == HandleResponse(response, JsonValue(RequestResponse(true, data)))
  {
  }
}

=== FILE: bonfida_streaming_client.dfy ===
/**
 * `BonfidaStreamingClient`: the trade subscription. Subscribing asks the
 * REST client for a dedicated WebSocket URL on the fixed channel "DEX",
 * remembers the client id (the URL's piece after its last `/ws/` split),
 * the address and the callback, then connects and listens; every payload
 * is decoded as a trade and passed to the stored callback. Unsubscribing
 * posts the stored client id and changes nothing else.
 *
 * The client owns one socket for its lifetime. `ClientWebSocket.ConnectAsync`
 * first rejects an address that is not an absolute ws/wss URI, leaving the
 * socket as it was; otherwise it starts the socket, and every later connect
 * throws, whether or not that attempt reached a peer.
 *
 * JSON decoding, URI validation and the network are parameters: `decode`
 * (a `Decoder`) is `None` where the deserializer throws, `validUri` says
 * whether `new Uri(url)` accepts the URL, `wsUri` whether `ConnectAsync`
 * accepts it (absolute, scheme ws or wss), and `network` gives the frames
 * of the peer at an address (`None` where connecting fails).
 */
module BonfidaStreamingClient {
  import opened Wrappers
  import opened Models
  import opened DotNetStrings
  import BonfidaClient
  import opened StreamingClient

  /** The channel every trade subscription requests. */
  const TradeChannel: string := "DEX"

  /** The marker before the client id in a subscription URL. */
  const ClientIdMarker: string := "/ws/"

  /** The user's `Action<Trade>`, identified by an opaque number. */
  datatype Callback = Callback(id: nat)

  /** One call of a callback with a trade; `None` is the null trade the JSON literal `null` decodes to. */
  datatype Invocation = Invocation(callback: Callback, trade: Option<Trade>)

  /**
   * UTF-8 decoding followed by `JsonSerializer.Deserialize<Trade>`: `None`
   * where it throws, `Some(None)` for a null trade, `Some(Some(t))` otherwise.
   */
  type Decoder = seq<byte> -> Option<Option<Trade>>

  /**
   * The mutable fields of the client; `None` is a field never assigned
   * (null). `socketStarted` records that `ConnectAsync` was already called
   * on the client's one socket.
   */
  datatype ClientState = ClientState(clientId: Option<string>, address: Option<string>, callback: Option<Callback>,
                                     socketStarted: bool)

  /**
   * `url.Split("/ws/")[^1]`: a suffix of the URL free of the marker; the
   * whole URL when the marker is absent.
   */
  function ClientIdOf(url: string): (id: string)
    ensures EndsWith(url, id)
    ensures !Contains(id, ClientIdMarker)
    ensures !Contains(url, ClientIdMarker) <==> id == url
  {
    LastPieceIsSeparatorFreeSuffix(url, ClientIdMarker);
    LastPiece(url, ClientIdMarker)
  }

  /**
   * A URL of the form `prefix/ws/id` yields `id`, provided the marker does
   * not already occur in `prefix` followed by `/ws` (otherwise the
   * left-to-right scan may consume part of this marker as an earlier one).
   */
  lemma ClientIdAfterMarker(prefix: string, id: string)
    requires !Contains(prefix + "/ws", ClientIdMarker)
    requires !Contains(id, ClientIdMarker)
    ensures ClientIdOf(prefix + ClientIdMarker + id) == id
  {
    var url := prefix + ClientIdMarker + id;
    var sep := ClientIdMarker;
    assert OccursAt(url, sep, |prefix|) by {
      assert url[|prefix|..|prefix| + 4] == sep;
    }
    var i := IndexOf(url, sep).value;
    if i < |prefix| {
      assert url[i..i + 4] == (prefix + "/ws")[i..i + 4];
      assert OccursAt(prefix + "/ws", sep, i);
    }
    assert i == |prefix|;
    assert url[i + 4..] == id;
    assert Split(url, sep) == [prefix] + Split(id, sep);
  }

  /**
   * The scan cuts at the leftmost marker: in `wss://h/ws/ws/` the first
   * `/ws/` is taken and the rest, `ws/`, is the client id.
   */
  lemma RepeatedMarkerClientId()
    ensures ClientIdOf("wss://h/ws/ws/") == "ws/"
  {
    var prefix := "wss://h";
    var id := "ws/";
    assert "wss://h/ws/ws/" == prefix + ClientIdMarker + id;
    forall j: nat ensures !OccursAt(prefix + "/ws", ClientIdMarker, j) {
      var a := prefix + "/ws";
      if j + 4 <= |a| {
        assert a[j] != '/' || a[j + 1] != 'w';
        assert a[j..j + 4][0] == a[j] && a[j..j + 4][1] == a[j + 1];
      }
    }
    ClientIdAfterMarker(prefix, id);
  }

  /** A subscription URL on host `host` with client id `abc123` yields `abc123`. */
  lemma ExampleClientId()
    ensures ClientIdOf("wss://host/ws/abc123") == "abc123"
  {
    var prefix := "wss://host";
    var id := "abc123";
    assert "wss://host/ws/abc123" == prefix + ClientIdMarker + id;
    forall j: nat ensures !OccursAt(prefix + "/ws", ClientIdMarker, j) {
      var a := prefix + "/ws";
      if j + 4 <= |a| {
        assert a[j] != '/' || a[j + 3] != '/';
        assert a[j..j + 4][0] == a[j] && a[j..j + 4][3] == a[j + 3];
      }
    }
    forall j: nat ensures !OccursAt(id, ClientIdMarker, j) {
      if j + 4 <= |id| {
        assert id[j..j + 4][0] == id[j];
      }
    }
    ClientIdAfterMarker(prefix, id);
  }

  /** How a subscribe call ended. */
  datatype SubscribeOutcome =
    | ReplyUnreadable                       // the reply deserialized to null: `subscription.Url` throws
    | Skipped                               // blank URL: silent return
    | BadUri                                // `new Uri(url)` threw
    | NotWebSocketUri(address: string)      // `ConnectAsync` threw before starting: not an absolute ws/wss URI
    | ConnectFailed(address: string)        // `ConnectAsync` threw: nobody listens at the address
    | AlreadyStarted(address: string)       // `ConnectAsync` threw: the socket was connected before
    | Listening(address: string, socket: Socket)  // connected; the read loop runs on `socket`

  /**
   * The channel of the subscribe request sent (the request itself is
   * `BonfidaClient.SubscribeRequest(channel)`), the client's fields
   * afterwards, and the outcome.
   */
  datatype SubscribeRun = SubscribeRun(channel: string, state: ClientState, outcome: SubscribeOutcome)

  /**
   * `SubscribeTradesAsync(callback)`: request a subscription on "DEX"; on a
   * null, empty or white-space URL return without touching any field;
   * otherwise store the client id, then the address and the callback (in
   * that order: a URL the `Uri` constructor rejects leaves only the client
   * id changed), then connect and start listening. Only the first connect
   * that gets past the scheme check can succeed; later subscribes still
   * overwrite the fields.
   */
  function SubscribeTrades(st: ClientState, reply: Option<Subscription>, cb: Callback,
                           validUri: string -> bool, wsUri: string -> bool,
                           network: string -> Option<seq<Frame>>): (r: SubscribeRun)
    ensures r.channel == TradeChannel
    ensures reply.None? ==> r.state == st && r.outcome == ReplyUnreadable
    ensures reply.Some? && IsNullOrWhiteSpace(reply.value.url) ==> r.state == st && r.outcome == Skipped
    ensures reply.Some? && !IsNullOrWhiteSpace(reply.value.url) ==>
      var url := reply.value.url.value;
      && r.state.clientId == Some(ClientIdOf(url))
      && (validUri(url) ==> r.state.address == Some(url) && r.state.callback == Some(cb))
      && (!validUri(url) ==> r.state.address == st.address && r.state.callback == st.callback && r.outcome == BadUri)
      && (r.state.socketStarted <==> st.socketStarted || (validUri(url) && wsUri(url)))
      && (validUri(url) ==>
            r.outcome == (if !wsUri(url) then NotWebSocketUri(url)
                          else if st.socketStarted then AlreadyStarted(url)
                          else if Init(url, network).Some? then Listening(url, Init(url, network).value)
                          else ConnectFailed(url)))
    ensures r.outcome.NotWebSocketUri? ==> r.state.socketStarted == st.socketStarted
    ensures r.outcome.ConnectFailed? || r.outcome.Listening? || r.outcome.AlreadyStarted? || r.outcome.NotWebSocketUri? ==>
      reply.Some? && reply.value.url == Some(r.outcome.address) && validUri(r.outcome.address)
    ensures r.outcome.ConnectFailed? || r.outcome.Listening? || r.outcome.AlreadyStarted? ==> wsUri(r.outcome.address)
    ensures r.outcome.Listening? ==> !st.socketStarted && Init(r.outcome.address, network) == Some(r.outcome.socket)
    ensures r.outcome.ConnectFailed? ==> !st.socketStarted && Init(r.outcome.address, network).None?
  {
    var channel := TradeChannel;
    match reply
    case None => SubscribeRun(channel, st, ReplyUnreadable)
    case Some(subscription) =>
      if IsNullOrWhiteSpace(subscription.url) then SubscribeRun(channel, st, Skipped)
      else
        var url := subscription.url.value;
        var withId := st.(clientId := Some(ClientIdOf(url)));
        if !validUri(url) then SubscribeRun(channel, withId, BadUri)
        else
          var stored := withId.(address := Some(url), callback := Some(cb));
          if !wsUri(url) then SubscribeRun(channel, stored, NotWebSocketUri(url))
          else if st.socketStarted then SubscribeRun(channel, stored.(socketStarted := true), AlreadyStarted(url))
          else
            match Init(url, network)
            case None => SubscribeRun(channel, stored.(socketStarted := true), ConnectFailed(url))
            case Some(socket) => SubscribeRun(channel, stored.(socketStarted := true), Listening(url, socket))
  }

  /**
   * The handshake of every trade subscription, whatever its reply: a POST to
   * `subscribe` with body `{"channel": "DEX"}`.
   */
  lemma TradeSubscribeRequest(st: ClientState, reply: Option<Subscription>, cb: Callback,
                              validUri: string -> bool, wsUri: string -> bool,
                              network: string -> Option<seq<Frame>>)
    ensures var channel := SubscribeTrades(st, reply, cb, validUri, wsUri, network).channel;
      BonfidaClient.SubscribeRequest(channel) == HttpRequest(Post, "subscribe", Some("{\"channel\": \"DEX\"}"))
  {
    var channel := SubscribeTrades(st, reply, cb, validUri, wsUri, network).channel;
    BonfidaClient.SubscribeRequestWithBody(channel, "{\"channel\": \"DEX\"}");
  }

  /** The second of two subscribes with usable URLs decides every field; the first leaves no trace. */
  lemma LastSubscribeWins(st: ClientState, reply1: Option<Subscription>, cb1: Callback, url2: string, cb2: Callback,
                          validUri: string -> bool, wsUri: string -> bool,
                          network: string -> Option<seq<Frame>>)
    requires !IsNullOrWhiteSpace(Some(url2)) && validUri(url2)
    ensures var first := SubscribeTrades(st, reply1, cb1, validUri, wsUri, network);
      SubscribeTrades(first.state, Some(Subscription(Some(url2))), cb2, validUri, wsUri, network).state
        == ClientState(Some(ClientIdOf(url2)), Some(url2), Some(cb2), first.state.socketStarted || wsUri(url2))
  {
  }

  /**
   * Once a subscribe's connect got past the scheme check, successfully or
   * not, a later subscribe on a usable URL cannot connect: the socket was
   * started already (or the later URL fails the scheme check itself).
   */
  lemma SecondConnectRefused(st: ClientState, reply1: Option<Subscription>, cb1: Callback, url2: string, cb2: Callback,
                             validUri: string -> bool, wsUri: string -> bool,
                             network: string -> Option<seq<Frame>>)
    requires !IsNullOrWhiteSpace(Some(url2)) && validUri(url2)
    ensures var first := SubscribeTrades(st, reply1, cb1, validUri, wsUri, network);
      first.outcome.Listening? || first.outcome.ConnectFailed? ==>
        SubscribeTrades(first.state, Some(Subscription(Some(url2))), cb2, validUri, wsUri, network).outcome
          == (if wsUri(url2) then AlreadyStarted(url2) else NotWebSocketUri(url2))
  {
  }

  /**
   * A URL that `new Uri` accepts but `ConnectAsync` rejects (say an `https`
   * URL) leaves the socket unstarted: a later subscribe on a ws/wss URL of a
   * listening peer still connects.
   */
  lemma RejectedSchemeKeepsSocket(st: ClientState, url1: string, cb1: Callback, url2: string, cb2: Callback,
                                  validUri: string -> bool, wsUri: string -> bool,
                                  network: string -> Option<seq<Frame>>)
    requires !st.socketStarted
    requires !IsNullOrWhiteSpace(Some(url1)) && validUri(url1) && !wsUri(url1)
    requires !IsNullOrWhiteSpace(Some(url2)) && validUri(url2) && wsUri(url2) && network(url2).Some?
    ensures var first := SubscribeTrades(st, Some(Subscription(Some(url1))), cb1, validUri, wsUri, network);
      && first.outcome == NotWebSocketUri(url1)
      && SubscribeTrades(first.state, Some(Subscription(Some(url2))), cb2, validUri, wsUri, network).outcome
           == Listening(url2, Socket(Open, network(url2).value))
  {
  }

  /**
   * `HandleNewMessage`: decode the payload as a trade and call the stored
   * callback with it, exactly once; `None` when decoding throws or no
   * callback is stored.
   */
  function HandleNewMessage(callback: Option<Callback>, decode: Decoder, payload: seq<byte>)
    : (r: Option<Invocation>)
    ensures r.Some? <==> callback.Some? && decode(payload).Some?
    ensures r.Some? ==> r.value.callback == callback.value && r.value.trade == decode(payload).value
  {
    match decode(payload)
    case None => None
    case Some(trade) =>
      match callback
      case None => None
      case Some(c) => Some(Invocation(c, trade))
  }

  /** The payload handler the read loop calls for this client. */
  function TradeHandler(callback: Option<Callback>, decode: Decoder): seq<byte> -> Option<Invocation> {
    payload => HandleNewMessage(callback, decode, payload)
  }

  /** The read loop of a subscribed client on its socket. */
  function Stream(st: ClientState, socket: Socket, decode: Decoder): Run<Invocation> {
    Listen(socket, TradeHandler(st.callback, decode))
  }

  /** The callback invocations of a run's steps, in order. */
  function Invocations(steps: seq<Step<Invocation>>): (calls: seq<Invocation>)
    ensures |calls| <= |steps|
  {
    if |steps| == 0 then []
    else
      match steps[0]
      case Handled(_, call) => [call] + Invocations(steps[1..])
      case Closing(_, _) => Invocations(steps[1..])
  }

  lemma {:induction false} InvocationsAppend(a: seq<Step<Invocation>>, b: seq<Step<Invocation>>)
    ensures Invocations(a + b) == Invocations(a) + Invocations(b)
    decreases |a|
  {
    if |a| > 0 {
      assert (a + b)[0] == a[0];
      assert (a + b)[1..] == a[1..] + b;
      InvocationsAppend(a[1..], b);
    } else {
      assert a + b == b;
    }
  }

  /** Data frames whose payloads decode, each leaving the socket Open. */
  ghost predicate DecodableTextFrames(frames: seq<Frame>, decode: Decoder) {
    forall i :: 0 <= i < |frames| ==>
      frames[i].kind != Close && frames[i].stateAfter == Open && decode(Payload(frames[i])).Some?
  }

  lemma {:induction false} HandledInvocations(frames: seq<Frame>, cb: Callback, decode: Decoder)
    requires DecodableTextFrames(frames, decode)
    ensures OpenDataFrames(frames, TradeHandler(Some(cb), decode))
    ensures var calls := Invocations(HandledSteps(frames, TradeHandler(Some(cb), decode)));
      |calls| == |frames| &&
      forall i :: 0 <= i < |frames| ==> calls[i] == Invocation(cb, decode(Payload(frames[i])).value)
    decreases |frames|
  {
    var handle := TradeHandler(Some(cb), decode);
    assert OpenDataFrames(frames, handle) by {
      forall i | 0 <= i < |frames|
        ensures frames[i].kind != Close && frames[i].stateAfter == Open && handle(Payload(frames[i])).Some?
      {
      }
    }
    if |frames| > 0 {
      assert DecodableTextFrames(frames[1..], decode) by {
        forall i | 0 <= i < |frames[1..]|
          ensures frames[1..][i].kind != Close && frames[1..][i].stateAfter == Open
          ensures decode(Payload(frames[1..][i])).Some?
        {
          assert frames[1..][i] == frames[i + 1];
        }
      }
      HandledInvocations(frames[1..], cb, decode);
      var steps := HandledSteps(frames, handle);
      var first := Handled(Payload(frames[0]), handle(Payload(frames[0])).value);
      assert steps == [first] + HandledSteps(frames[1..], handle);
      InvocationsAppend([first], HandledSteps(frames[1..], handle));
      assert Invocations([first]) == [Invocation(cb, decode(Payload(frames[0])).value)];
      var calls := Invocations(steps);
      var rest := Invocations(HandledSteps(frames[1..], handle));
      assert calls == [Invocation(cb, decode(Payload(frames[0])).value)] + rest;
      forall i | 0 < i < |frames|
        ensures calls[i] == Invocation(cb, decode(Payload(frames[i])).value)
      {
        assert calls[i] == rest[i - 1];
        assert frames[1..][i - 1] == frames[i];
      }
    }
  }

  /**
   * Subscribing on a usable URL whose peer sends N decodable text frames and
   * then a Close frame: the callback is called exactly N times, with the
   * decoded trades in receive order, and the loop stops with the socket
   * Closed and nothing more received.
   */
  lemma {:induction false} SubscribeThenStream(st: ClientState, url: string, cb: Callback, frames: seq<Frame>, close: Frame,
                                              later: seq<Frame>, decode: Decoder,
                                              validUri: string -> bool, wsUri: string -> bool,
                                              network: string -> Option<seq<Frame>>)
    requires !IsNullOrWhiteSpace(Some(url)) && validUri(url) && wsUri(url) && !st.socketStarted
    requires network(url) == Some(frames + [close] + later)
    requires DecodableTextFrames(frames, decode) && close.kind == Close
    ensures var sub := SubscribeTrades(st, Some(Subscription(Some(url))), cb, validUri, wsUri, network);
      && sub.outcome == Listening(url, Socket(Open, frames + [close] + later))
      && var run := Stream(sub.state, sub.outcome.socket, decode);
      && run.socket == Socket(Closed, later) && run.halt == NotOpen
      && |Invocations(run.steps)| == |frames|
      && forall i :: 0 <= i < |frames| ==>
           Invocations(run.steps)[i] == Invocation(cb, decode(Payload(frames[i])).value)
  {
    var sub := SubscribeTrades(st, Some(Subscription(Some(url))), cb, validUri, wsUri, network);
    var handle := TradeHandler(Some(cb), decode);
    HandledInvocations(frames, cb, decode);
    DataThenClose(frames, close, later, handle);
    var steps := HandledSteps(frames, handle);
    InvocationsAppend(steps, [Closing(NormalClosure, "")]);
    assert Invocations([Closing(NormalClosure, "")]) == [];
    assert Invocations(steps + [Closing(NormalClosure, "")]) == Invocations(steps);
  }

  /**
   * The delivery exercised by the client's own test: one text frame after
   * which the transport reports Closed gives exactly one callback with its
   * decoded trade, and no further receive.
   */
  lemma {:induction false} OneFrameThenClosed(st: ClientState, url: string, cb: Callback, f: Frame, later: seq<Frame>,
                                             decode: Decoder,
                                             validUri: string -> bool, wsUri: string -> bool,
                                             network: string -> Option<seq<Frame>>)
    requires !IsNullOrWhiteSpace(Some(url)) && validUri(url) && wsUri(url) && !st.socketStarted
    requires network(url) == Some([f] + later)
    requires f.kind != Close && f.stateAfter == Closed && decode(Payload(f)).Some?
    ensures var sub := SubscribeTrades(st, Some(Subscription(Some(url))), cb, validUri, wsUri, network);
      && sub.outcome.Listening?
      && var run := Stream(sub.state, sub.outcome.socket, decode);
      && Invocations(run.steps) == [Invocation(cb, decode(Payload(f)).value)]
      && run.socket == Socket(Closed, later)
  {
    var handle := TradeHandler(Some(cb), decode);
    DataThenStateClosed(f, later, handle);
    var step := Handled(Payload(f), handle(Payload(f)).value);
    assert Invocations([step]) == [step.effect] + Invocations([]);
  }

  /**
   * `UnsubscribeTradesAsync`: one POST to `unsubscribe/{ClientId}` with the
   * stored client id; the client's fields are only read.
   */
  function UnsubscribeTrades(st: ClientState): (r: HttpRequest)
    ensures r == BonfidaClient.UnsubscribeRequest(st.clientId)
    ensures r.verb == Post && r.body.None?
    ensures r.path == "unsubscribe/" + st.clientId.GetOr("")
  {
    BonfidaClient.UnsubscribeRequest(st.clientId)
  }

  /**
   * After a subscribe on a usable URL, unsubscribing addresses the client id
   * taken from that URL, and the id is the URL's tail.
   */
  lemma UnsubscribeUsesSubscribedId(st: ClientState, url: string, cb: Callback,
                                    validUri: string -> bool, wsUri: string -> bool,
                                    network: string -> Option<seq<Frame>>)
    requires !IsNullOrWhiteSpace(Some(url))
    ensures var sub := SubscribeTrades(st, Some(Subscription(Some(url))), cb, validUri, wsUri, network);
      var id := UnsubscribeTrades(sub.state).path[|"unsubscribe/"|..];
      id == ClientIdOf(url) && EndsWith(url, id) && !Contains(id, ClientIdMarker)
  {
  }
}

=== FILE: dotnet_strings.dfy ===
/**
 * The few `System.String` operations the client relies on, with the
 * semantics .NET gives them: `Split(string)` scans left to right for
 * non-overlapping occurrences of the separator, `Replace` substitutes each
 * such occurrence, and `IsNullOrWhiteSpace` uses `Char.IsWhiteSpace`.
 */
module DotNetStrings {
  import opened Wrappers

  /** `sep` occurs in `s` starting at index `i`. */
  predicate OccursAt(s: string, sep: string, i: nat) {
    i + |sep| <= |s| && s[i..i + |sep|] == sep
  }

  /** `sep` occurs somewhere in `s` (`String.Contains`). */
  ghost predicate Contains(s: string, sep: string) {
    exists i: nat :: OccursAt(s, sep, i)
  }

  /** `s` ends with `suffix`. */
  predicate EndsWith(s: string, suffix: string) {
    |suffix| <= |s| && s[|s| - |suffix|..] == suffix
  }

  /** `s` starts with `prefix`. */
  predicate StartsWith(s: string, prefix: string) {
    |prefix| <= |s| && s[..|prefix|] == prefix
  }

  lemma OccursAfterFirst(s: string, sep: string)
    requires |s| > 0
    ensures forall j: nat :: OccursAt(s[1..], sep, j) <==> OccursAt(s, sep, j + 1)
  {
    forall j: nat
      ensures OccursAt(s[1..], sep, j) <==> OccursAt(s, sep, j + 1)
    {
      if j + |sep| <= |s[1..]| {
        assert s[1..][j..j + |sep|] == s[j + 1..j + 1 + |sep|];
      }
    }
  }

  lemma OccursInPrefix(s: string, sep: string, i: nat, j: nat)
    requires i <= |s|
    requires OccursAt(s[..i], sep, j)
    ensures OccursAt(s, sep, j) && j + |sep| <= i
  {
    assert s[..i][j..j + |sep|] == s[j..j + |sep|];
  }

  /**
   * Index of the first occurrence of a non-empty `sep` in `s`
   * (`String.IndexOf` with ordinal comparison), or `None`.
   */
  function IndexOf(s: string, sep: string): (r: Option<nat>)
    requires |sep| > 0
    ensures r.Some? ==> OccursAt(s, sep, r.value)
    ensures r.Some? ==> forall j: nat :: j < r.value ==> !OccursAt(s, sep, j)
    ensures r.None? <==> !Contains(s, sep)
    decreases |s|
  {
    if |s| < |sep| then None
    else if s[..|sep|] == sep then Some(0)
    else
      OccursAfterFirst(s, sep);
      match IndexOf(s[1..], sep)
      case None =>
        assert forall j: nat :: !OccursAt(s, sep, j) by {
          forall j: nat ensures !OccursAt(s, sep, j) {
            if j > 0 {
              assert !OccursAt(s[1..], sep, j - 1);
            }
          }
        }
        None
      case Some(i) =>
        assert forall j: nat :: j < i + 1 ==> !OccursAt(s, sep, j) by {
          forall j: nat | j < i + 1 ensures !OccursAt(s, sep, j) {
            if j > 0 {
              assert !OccursAt(s[1..], sep, j - 1);
            }
          }
        }
        Some(i + 1)
  }

  /** `String.Join(sep, parts)`. */
  function Join(parts: seq<string>, sep: string): string
    decreases |parts|
  {
    if |parts| == 0 then ""
    else if |parts| == 1 then parts[0]
    else parts[0] + sep + Join(parts[1..], sep)
  }

  /**
   * `s.Split(sep)` with `StringSplitOptions.None`: the pieces between the
   * non-overlapping occurrences of `sep`, found left to right. An empty
   * separator leaves the string whole, as .NET does.
   */
  function Split(s: string, sep: string): (r: seq<string>)
    ensures |r| >= 1
    ensures Join(r, sep) == s
    ensures |sep| > 0 ==> forall k :: 0 <= k < |r| ==> !Contains(r[k], sep)
    ensures |sep| > 0 ==> (|r| == 1 <==> !Contains(s, sep))
    ensures |sep| > 0 ==> forall k :: 0 <= k < |r| - 1 ==> Leftmost(r[k], sep)
    decreases |s|
  {
    if |sep| == 0 then [s]
    else
      match IndexOf(s, sep)
      case None => [s]
      case Some(i) =>
        var tail := Split(s[i + |sep|..], sep);
        SplitAtFirst(s, sep, i);
        JoinCons(s[..i], tail, sep);
        [s[..i]] + tail
  }

  /**
   * A piece cut at the leftmost occurrence: no occurrence of `sep` starts
   * inside it, not even one that runs on into the separator after it.
   */
  ghost predicate Leftmost(piece: string, sep: string) {
    |sep| > 0 && !Contains(piece + sep[..|sep| - 1], sep)
  }

  /** A leftmost head hides no occurrence that starts before the separator following it. */
  lemma LeftmostBlocksEarlier(head: string, sep: string, rest: string, j: nat)
    requires Leftmost(head, sep) && j < |head|
    ensures !OccursAt(head + sep + rest, sep, j)
  {
    var s := head + sep + rest;
    var run := head + sep[..|sep| - 1];
    assert run == s[..|head| + |sep| - 1];
    assert j + |sep| <= |run| ==> run[j..j + |sep|] == s[j..j + |sep|];
    assert !OccursAt(run, sep, j);
  }

  /** Cutting at the first occurrence leaves a separator-free head cut leftmost. */
  lemma SplitAtFirst(s: string, sep: string, i: nat)
    requires |sep| > 0 && OccursAt(s, sep, i)
    requires forall j: nat :: j < i ==> !OccursAt(s, sep, j)
    ensures !Contains(s[..i], sep)
    ensures Leftmost(s[..i], sep)
    ensures s == s[..i] + sep + s[i + |sep|..]
  {
    var run := s[..i] + sep[..|sep| - 1];
    assert run == s[..i + |sep| - 1];
    forall j: nat ensures !OccursAt(run, sep, j) {
      if OccursAt(run, sep, j) {
        OccursInPrefix(s, sep, i + |sep| - 1, j);
      }
    }
    forall j: nat ensures !OccursAt(s[..i], sep, j) {
      if OccursAt(s[..i], sep, j) {
        OccursInPrefix(s, sep, i, j);
      }
    }
  }

  lemma JoinCons(head: string, tail: seq<string>, sep: string)
    requires |tail| >= 1
    ensures Join([head] + tail, sep) == head + sep + Join(tail, sep)
    ensures forall k :: 0 < k < |tail| + 1 ==> ([head] + tail)[k] == tail[k - 1]
  {
    assert ([head] + tail)[1..] == tail;
  }

  /**
   * The contract of `Split` fixes its result: any pieces that join back to
   * `s`, contain no separator and are cut leftmost are exactly `Split(s, sep)`.
   */
  lemma {:induction false} SplitIsUnique(s: string, sep: string, parts: seq<string>)
    requires |sep| > 0 && |parts| >= 1 && Join(parts, sep) == s
    requires forall k :: 0 <= k < |parts| ==> !Contains(parts[k], sep)
    requires forall k :: 0 <= k < |parts| - 1 ==> Leftmost(parts[k], sep)
    ensures parts == Split(s, sep)
    decreases |parts|
  {
    if |parts| == 1 {
      assert s == parts[0];
    } else {
      var head := parts[0];
      var rest := Join(parts[1..], sep);
      assert s == head + sep + rest;
      assert OccursAt(s, sep, |head|) by {
        assert s[|head|..|head| + |sep|] == sep;
      }
      var i := IndexOf(s, sep).value;
      if i < |head| {
        LeftmostBlocksEarlier(head, sep, rest, i);
      }
      assert i == |head|;
      assert s[i + |sep|..] == rest;
      forall k | 0 <= k < |parts[1..]| ensures !Contains(parts[1..][k], sep) {
        assert parts[1..][k] == parts[k + 1];
      }
      forall k | 0 <= k < |parts[1..]| - 1 ensures Leftmost(parts[1..][k], sep) {
        assert parts[1..][k] == parts[k + 1];
      }
      SplitIsUnique(rest, sep, parts[1..]);
      assert parts == [head] + parts[1..];
    }
  }

  lemma JoinPair(a: string, b: string, sep: string)
    ensures Join([a, b], sep) == a + sep + b
  {
    assert [a, b][1..] == [b];
  }

  /** The last piece of `s.Split(sep)` (C# `s.Split(sep)[^1]`). */
  function LastPiece(s: string, sep: string): string {
    var parts := Split(s, sep);
    parts[|parts| - 1]
  }

  lemma {:induction false} JoinEndsWithLast(parts: seq<string>, sep: string)
    requires |parts| >= 1
    ensures EndsWith(Join(parts, sep), parts[|parts| - 1])
    decreases |parts|
  {
    if |parts| > 1 {
      JoinEndsWithLast(parts[1..], sep);
      var rest := Join(parts[1..], sep);
      var whole := parts[0] + sep + rest;
      assert whole[|whole| - |rest|..] == rest;
      assert parts[1..][|parts[1..]| - 1] == parts[|parts| - 1];
    }
  }

  /**
   * The last piece of a split is a suffix of the string that contains no
   * separator, and it is the whole string when the separator is absent.
   */
  lemma LastPieceIsSeparatorFreeSuffix(s: string, sep: string)
    requires |sep| > 0
    ensures EndsWith(s, LastPiece(s, sep))
    ensures !Contains(LastPiece(s, sep), sep)
    ensures !Contains(s, sep) <==> LastPiece(s, sep) == s
  {
    var parts := Split(s, sep);
    JoinEndsWithLast(parts, sep);
    if LastPiece(s, sep) == s {
      assert !Contains(s, sep);
    }
  }

  /**
   * `s.Replace(oldValue, newValue)` for a non-empty `oldValue` (.NET throws on an empty
   * one): every non-overlapping occurrence, found left to right, is
   * replaced, and the inserted text is not rescanned.
   */
  function Replace(s: string, oldValue: string, newValue: string): (r: string)
    requires |oldValue| > 0
    ensures !Contains(s, oldValue) ==> r == s
  {
    Join(Split(s, oldValue), newValue)
  }

  /** Splitting `a + sep + b` when the one-character `sep` occurs in neither part. */
  lemma {:induction false} SplitAroundSingle(a: string, sep: string, b: string)
    requires |sep| == 1
    requires !Contains(a, sep) && !Contains(b, sep)
    ensures Split(a + sep + b, sep) == [a, b]
  {
    var s := a + sep + b;
    assert OccursAt(s, sep, |a|) by {
      assert s[|a|..|a| + 1] == sep;
    }
    var i := IndexOf(s, sep).value;
    if i < |a| {
      assert s[i..i + 1] == a[i..i + 1];
      assert OccursAt(a, sep, i);
    }
    assert i == |a|;
    assert s[..i] == a;
    assert s[i + 1..] == b;
  }

  /** `Char.IsWhiteSpace`: Unicode space, line and paragraph separators, plus U+0009–U+000D and U+0085. */
  predicate IsWhiteSpace(c: char) {
    var n := c as int;
    || n == 0x20 || n == 0xA0 || n == 0x1680
    || (0x2000 <= n <= 0x200A) || n == 0x202F || n == 0x205F || n == 0x3000
    || n == 0x2028 || n == 0x2029
    || (0x09 <= n <= 0x0D) || n == 0x85
  }

  /**
   * `String.IsNullOrWhiteSpace`: true for null; otherwise the characters are
   * scanned and the first one that is not white space answers false.
   */
  function IsNullOrWhiteSpace(s: Option<string>): (r: bool)
    ensures s.None? ==> r
    ensures s.Some? ==> (r <==> forall i :: 0 <= i < |s.value| ==> IsWhiteSpace(s.value[i]))
  {
    match s
    case None => true
    case Some(t) => AllWhiteSpace(t)
  }

  /** The scan of `IsNullOrWhiteSpace` over a non-null string. */
  function AllWhiteSpace(t: string): (r: bool)
    ensures r <==> forall i :: 0 <= i < |t| ==> IsWhiteSpace(t[i])
  {
    if |t| == 0 then true
    else if !IsWhiteSpace(t[0]) then false
    else
      var r := AllWhiteSpace(t[1..]);
      assert forall i :: 1 <= i < |t| ==> t[i] == t[1..][i - 1];
      r
  }
}

=== FILE: models.dfy ===
/**
 * Value shapes shared by the REST and streaming clients: bytes, the trade
 * record delivered to subscribers, the subscription reply, and the HTTP
 * request and response the clients exchange with the exchange's API.
 */
module Models {
  import opened Wrappers

  newtype byte = x: int | 0 <= x < 256

  const U64Limit: int := 0x1_0000_0000_0000_0000

  /** The C# `ulong` carried by `Trade.Time`. */
  newtype u64 = x: int | 0 <= x < U64Limit

  /**
   * A trade on the Serum DEX. The C# `decimal` fields are exact decimal
   * numbers, so they are `real` here; `Time` is milliseconds since the epoch.
   */
  datatype Trade = Trade(
    market: string,
    marketAddress: string,
    price: real,
    size: real,
    side: string,
    time: u64,
    orderId: string,
    feeCost: real)

  /** The subscribe reply: the URL of the dedicated WebSocket endpoint, possibly null. */
  datatype Subscription = Subscription(url: Option<string>)

  datatype HttpMethod = Get | Post

  /** One request sent by the REST client: verb, path relative to the base address, body. */
  datatype HttpRequest = HttpRequest(verb: HttpMethod, path: string, body: Option<string>)

  /** The parts of an `HttpResponseMessage` the client reads. */
  datatype HttpResponse = HttpResponse(statusCode: int, reasonPhrase: Option<string>)

  /** `HttpResponseMessage.IsSuccessStatusCode`: the status lies in 200–299. */
  predicate IsSuccessStatusCode(statusCode: int) {
    200 <= statusCode <= 299
  }
}

=== FILE: request_result.dfy ===
/**
 * `RequestResult<T>`: what every REST query returns. Its flags are derived
 * once, when the result is built from the HTTP response and the (possibly
 * null) data; `Data` being null is `None`.
 */
module RequestResults {
  import opened Wrappers
  import opened Models

  datatype RequestResult<T> = RequestResult(
    wasHttpRequestSuccessful: bool,
    wasRequestSuccessfullyHandled: bool,
    httpStatusCode: int,
    reason: Option<string>,
    data: Option<T>)
  {
    /** Both the HTTP exchange and the handling of its content succeeded. */
    predicate WasSuccessful(): (r: bool)
      ensures r ==> wasHttpRequestSuccessful
      ensures r ==> wasRequestSuccessfullyHandled
      ensures wasHttpRequestSuccessful && wasRequestSuccessfullyHandled ==> r
    {
      wasHttpRequestSuccessful && wasRequestSuccessfullyHandled
    }
  }

  /**
   * The constructor `RequestResult(resultMsg, result = default)`: status
   * code and reason are copied, the HTTP flag mirrors the response's success
   * bit, the data is stored as given, and the request counts as handled
   * exactly when the data is non-null.
   */
  function NewRequestResult<T>(response: HttpResponse, result: Option<T>): (r: RequestResult<T>)
    ensures r.httpStatusCode == response.statusCode
    ensures r.reason == response.reasonPhrase
    ensures r.data == result
    ensures r.wasHttpRequestSuccessful <==> IsSuccessStatusCode(response.statusCode)
    ensures r.wasRequestSuccessfullyHandled <==> result.Some?
    ensures r.WasSuccessful() <==> IsSuccessStatusCode(response.statusCode) && result.Some?
  {
    RequestResult(
      IsSuccessStatusCode(response.statusCode),
      result.Some?,
      response.statusCode,
      response.reasonPhrase,
      result)
  }

  /** A result built without data (the constructor's default argument) is never successful. */
  lemma NoDataIsNeverSuccessful<T>(response: HttpResponse)
    ensures !NewRequestResult<T>(response, None).WasSuccessful()
    ensures NewRequestResult<T>(response, None).data.None?
  {
  }

  /** With data present, success is decided by the HTTP status alone. */
  lemma WithDataSuccessFollowsStatus<T>(response: HttpResponse, data: T)
    ensures NewRequestResult(response, Some(data)).WasSuccessful() <==> IsSuccessStatusCode(response.statusCode)
  {
  }
}

=== FILE: streaming_client.dfy ===
/**
 * The base `StreamingClient`: connect once, then read frames while the
 * socket is Open. A Close frame is answered with a Normal Closure close
 * (status 1000, section 7.4.1 of RFC 6455): the peer's Close is answered,
 * as section 5.5.1 requires, but with status 1000 rather than the peer's
 * own status code; any other frame is written into a fresh 32768-byte
 * buffer, sliced to the received count and handed to the payload handler.
 *
 * The transport is a script: the state it reports and the frames its
 * receive calls will return, in order. The handler is a function from the
 * payload to its effect, `None` when it throws (which ends the read task).
 */
module StreamingClient {
  import opened Wrappers
  import opened Models

  /** Size of the receive buffer allocated for every read. */
  const BufferSize: nat := 32768

  /** `WebSocketCloseStatus.NormalClosure`. */
  const NormalClosure: nat := 1000

  /** `System.Net.WebSockets.WebSocketState`; `Unopened` is the enum's `None`. */
  datatype WsState = Unopened | Connecting | Open | CloseSent | CloseReceived | Closed | Aborted

  /** `WebSocketMessageType`. */
  datatype MessageKind = Text | Binary | Close

  /** What one receive can deliver: the transport writes at most a buffer's worth. */
  type Chunk = b: seq<byte> | |b| <= BufferSize

  /**
   * One receive as the transport completes it: the message kind, the bytes
   * written into the buffer, and the state the socket reports once the
   * receive is done. A message longer than the buffer takes several
   * receives (see `Receives`).
   */
  datatype Frame = Frame(kind: MessageKind, bytes: Chunk, stateAfter: WsState)

  /** The socket: its current state and the frames still to be received. */
  datatype Socket = Socket(state: WsState, inbox: seq<Frame>)

  /** What one read does besides consuming a frame. */
  datatype Step<E> =
    | Handled(payload: seq<byte>, effect: E)
    | Closing(status: nat, description: string)

  /**
   * Why the read loop stopped: the state was no longer Open, it is
   * suspended in a receive the script never completes, or the handler threw.
   */
  datatype Halt = NotOpen | Awaiting | Faulted

  /** A run of the read loop: the steps taken, in order, and the final socket. */
  datatype Run<E> = Run(steps: seq<Step<E>>, socket: Socket, halt: Halt)

  /** `Init`: connect to the address; the script of the peer found there is read from then on. */
  function Init(address: string, network: string -> Option<seq<Frame>>): (r: Option<Socket>)
    ensures r.Some? <==> network(address).Some?
    ensures r.Some? ==> r.value.state == Open && r.value.inbox == network(address).value
  {
    match network(address)
    case None => None
    case Some(frames) => Some(Socket(Open, frames))
  }

  /** `result.Count`: the number of bytes the receive wrote, never past the buffer. */
  function ReceivedCount(f: Frame): (n: nat)
    ensures n == |f.bytes| && n <= BufferSize
  {
    |f.bytes|
  }

  function Zeros(n: nat): (z: seq<byte>)
    ensures |z| == n && forall i :: 0 <= i < n ==> z[i] == 0
  {
    seq(n, _ => 0)
  }

  /** The `new byte[32768]` buffer after the receive has written the frame into it. */
  function ReceiveBuffer(f: Frame): (buffer: seq<byte>)
    ensures |buffer| == BufferSize
  {
    f.bytes + Zeros(BufferSize - |f.bytes|)
  }

  /**
   * The payload handed to the handler, `mem[..count]`: the receive buffer
   * sliced to the received count, which is exactly what this receive wrote.
   */
  function Payload(f: Frame): (p: seq<byte>)
    ensures p == f.bytes && |p| <= BufferSize
  {
    var buffer := ReceiveBuffer(f);
    assert buffer[..ReceivedCount(f)] == f.bytes;
    buffer[..ReceivedCount(f)]
  }

  /** The bytes a sequence of receives wrote, in order. */
  function Bytes(frames: seq<Frame>): seq<byte> {
    if |frames| == 0 then [] else frames[0].bytes + Bytes(frames[1..])
  }

  /**
   * The receives that deliver one message of the given kind: full buffers
   * while more than a buffer's worth remains, then the rest. The socket stays
   * Open between them; the last reports `stateAfter`.
   */
  function Receives(kind: MessageKind, message: seq<byte>, stateAfter: WsState): (frames: seq<Frame>)
    ensures |frames| >= 1 && Bytes(frames) == message
    ensures forall i :: 0 <= i < |frames| ==> frames[i].kind == kind
    ensures forall i :: 0 <= i < |frames| - 1 ==> |frames[i].bytes| == BufferSize && frames[i].stateAfter == Open
    ensures frames[|frames| - 1].stateAfter == stateAfter
    ensures |message| > BufferSize <==> |frames| > 1
    decreases |message|
  {
    if |message| <= BufferSize then [Frame(kind, message, stateAfter)]
    else
      var rest := Receives(kind, message[BufferSize..], stateAfter);
      var frames := [Frame(kind, message[..BufferSize], Open)] + rest;
      assert frames[1..] == rest;
      assert message == message[..BufferSize] + message[BufferSize..];
      frames
  }

  /**
   * What reading a frame amounts to when it is not interrupted: a Close
   * frame is answered with a Normal Closure close and an empty description,
   * any other frame hands its payload to the handler; `None` when the
   * handler throws.
   */
  function StepFor<E>(f: Frame, handle: seq<byte> -> Option<E>): (r: Option<Step<E>>)
    ensures f.kind == Close <==> r.Some? && r.value.Closing?
    ensures r.Some? && r.value.Closing? ==> r.value == Closing(NormalClosure, "")
    ensures r.Some? && r.value.Handled? ==> r.value.payload == Payload(f)
    ensures f.kind != Close ==> (r.None? <==> handle(Payload(f)).None?)
    ensures f.kind != Close && r.Some? ==> r.value == Handled(Payload(f), handle(Payload(f)).value)
  {
    if f.kind == Close then Some(Closing(NormalClosure, ""))
    else
      match handle(Payload(f))
      case None => None
      case Some(e) => Some(Handled(Payload(f), e))
  }

  /** The outcome of one `ReadNextMessage`. */
  datatype Read<E> = Stepped(socket: Socket, step: Step<E>) | Threw(socket: Socket)

  /**
   * `ReadNextMessage`: receive one frame. A Close frame leads to
   * `CloseAsync(NormalClosure, "")`, which leaves the socket Closed, and
   * the handler is not called; any other frame's payload goes to the
   * handler and the socket keeps the state the transport reported.
   */
  function ReadNextMessage<E>(sock: Socket, handle: seq<byte> -> Option<E>): (r: Read<E>)
    requires |sock.inbox| > 0
    ensures r.socket.inbox == sock.inbox[1..]
    ensures r.Threw? <==> StepFor(sock.inbox[0], handle).None?
    ensures r.Stepped? ==> StepFor(sock.inbox[0], handle) == Some(r.step)
    ensures r.Threw? ==> sock.inbox[0].kind != Close
    ensures sock.inbox[0].kind == Close ==> r.socket.state == Closed
    ensures sock.inbox[0].kind != Close ==> r.socket.state == sock.inbox[0].stateAfter
  {
    var frame := sock.inbox[0];
    var after := if frame.kind == Close then Closed else frame.stateAfter;
    match StepFor(frame, handle)
    case None => Threw(Socket(after, sock.inbox[1..]))
    case Some(step) => Stepped(Socket(after, sock.inbox[1..]), step)
  }

  /** The number of frames a run consumed. */
  function Consumed<E>(sock: Socket, r: Run<E>): int {
    |sock.inbox| - |r.socket.inbox|
  }

  /**
   * `StartListening`: read while the state is Open. Nothing is received once
   * the state is not Open, and every receive consumes the next frame.
   */
  function Listen<E>(sock: Socket, handle: seq<byte> -> Option<E>): (r: Run<E>)
    ensures sock.state != Open ==> r == Run([], sock, NotOpen)
    ensures |r.socket.inbox| <= |sock.inbox|
    ensures r.halt == NotOpen ==> r.socket.state != Open
    ensures r.halt == Awaiting ==> r.socket.state == Open && r.socket.inbox == []
    decreases |sock.inbox|
  {
    if sock.state != Open then Run([], sock, NotOpen)
    else if |sock.inbox| == 0 then Run([], sock, Awaiting)
    else
      match ReadNextMessage(sock, handle)
      case Threw(next) => Run([], next, Faulted)
      case Stepped(next, step) =>
        var rest := Listen(next, handle);
        Run([step] + rest.steps, rest.socket, rest.halt)
  }

  /** The frames left after a run are exactly those not yet received. */
  lemma {:induction false} LeftoverIsUnread<E>(sock: Socket, handle: seq<byte> -> Option<E>)
    ensures var r := Listen(sock, handle);
      r.socket.inbox == sock.inbox[Consumed(sock, r)..]
    decreases |sock.inbox|
  {
    if sock.state == Open && |sock.inbox| > 0 {
      match ReadNextMessage(sock, handle)
      case Threw(next) =>
      case Stepped(next, step) =>
        LeftoverIsUnread(next, handle);
        var rest := Listen(next, handle);
        assert next.inbox[Consumed(next, rest)..] == sock.inbox[Consumed(next, rest) + 1..];
    }
  }

  /**
   * The loop leaves off only when the state is no longer Open: a run that
   * stopped for that reason after receiving ended with a Close frame or with
   * a receive after which the transport reported a state other than Open.
   * So while the reported state is Open it keeps receiving.
   */
  lemma {:induction false} StopsOnlyAtNonOpen<E>(sock: Socket, handle: seq<byte> -> Option<E>)
    ensures var r := Listen(sock, handle);
      r.halt == NotOpen && Consumed(sock, r) > 0 ==>
        var last := sock.inbox[Consumed(sock, r) - 1];
        r.socket.state == (if last.kind == Close then Closed else last.stateAfter) && r.socket.state != Open
    decreases |sock.inbox|
  {
    if sock.state == Open && |sock.inbox| > 0 {
      match ReadNextMessage(sock, handle)
      case Threw(next) =>
      case Stepped(next, step) =>
        StopsOnlyAtNonOpen(next, handle);
        LeftoverIsUnread(next, handle);
        var rest := Listen(next, handle);
        assert Listen(sock, handle).socket == rest.socket && Listen(sock, handle).halt == rest.halt;
        if Consumed(next, rest) > 0 {
          assert sock.inbox[Consumed(next, rest)] == next.inbox[Consumed(next, rest) - 1];
        }
    }
  }

  /** Each receive yields at most one step: only a read whose handler threw yields none. */
  lemma {:induction false} OneStepPerFrame<E>(sock: Socket, handle: seq<byte> -> Option<E>)
    ensures var r := Listen(sock, handle);
      |r.steps| + (if r.halt == Faulted then 1 else 0) == Consumed(sock, r)
    decreases |sock.inbox|
  {
    if sock.state == Open && |sock.inbox| > 0 {
      match ReadNextMessage(sock, handle)
      case Threw(next) =>
      case Stepped(next, step) =>
        OneStepPerFrame(next, handle);
    }
  }

  /**
   * The steps of run `r` are, in order, those the first frames of `sock`
   * produce, and a faulted run stopped at a frame whose handler threw.
   */
  ghost predicate FollowsFrames<E>(sock: Socket, r: Run<E>, handle: seq<byte> -> Option<E>) {
    && (forall i: nat :: StepFollowsFrame(sock, r, handle, i))
    && (r.halt == Faulted ==> |r.steps| < |sock.inbox| && StepFor(sock.inbox[|r.steps|], handle).None?)
  }

  /** Step i of run `r`, if there is one, is the one frame i of `sock` produces. */
  ghost predicate StepFollowsFrame<E>(sock: Socket, r: Run<E>, handle: seq<byte> -> Option<E>, i: nat) {
    i < |r.steps| ==> i < |sock.inbox| && StepFor(sock.inbox[i], handle) == Some(r.steps[i])
  }

  /** The i-th step of a run is the one the i-th frame produces. */
  lemma {:induction false} StepAt<E>(sock: Socket, handle: seq<byte> -> Option<E>, i: nat)
    ensures i < |Listen(sock, handle).steps| ==>
      i < |sock.inbox| && StepFor(sock.inbox[i], handle) == Some(Listen(sock, handle).steps[i])
    decreases i
  {
    if sock.state == Open && |sock.inbox| > 0 {
      match ReadNextMessage(sock, handle)
      case Threw(_) =>
      case Stepped(next, step) =>
        var rest := Listen(next, handle);
        assert Listen(sock, handle).steps == [step] + rest.steps;
        if 0 < i < |rest.steps| + 1 {
          StepAt(next, handle, i - 1);
          assert sock.inbox[i] == next.inbox[i - 1];
        }
    }
  }

  /** A faulted run stopped at the frame right after its last step, whose handler threw. */
  lemma {:induction false} FaultAt<E>(sock: Socket, handle: seq<byte> -> Option<E>)
    ensures var r := Listen(sock, handle);
      r.halt == Faulted ==> |r.steps| < |sock.inbox| && StepFor(sock.inbox[|r.steps|], handle).None?
    decreases |sock.inbox|
  {
    if sock.state == Open && |sock.inbox| > 0 {
      match ReadNextMessage(sock, handle)
      case Threw(_) =>
      case Stepped(next, step) =>
        FaultAt(next, handle);
        var rest := Listen(next, handle);
        assert Listen(sock, handle).steps == [step] + rest.steps;
        if rest.halt == Faulted {
          assert sock.inbox[|rest.steps| + 1] == next.inbox[|rest.steps|];
        }
    }
  }

  /** Every step follows its frame, in order. */
  lemma StepsFollowFrames<E>(sock: Socket, handle: seq<byte> -> Option<E>)
    ensures FollowsFrames(sock, Listen(sock, handle), handle)
  {
    var r := Listen(sock, handle);
    forall i: nat ensures StepFollowsFrame(sock, r, handle, i) {
      StepAt(sock, handle, i);
    }
    FaultAt(sock, handle);
    assert r.halt == Faulted ==> |r.steps| < |sock.inbox| && StepFor(sock.inbox[|r.steps|], handle).None?;
  }

  /** A run that consumed a frame started on an Open socket. */
  lemma ReceivesNeedOpen<E>(sock: Socket, handle: seq<byte> -> Option<E>)
    ensures Consumed(sock, Listen(sock, handle)) > 0 ==> sock.state == Open
  {
  }

  /**
   * The i-th receive was followed by another only because it left the socket
   * Open: it was not a Close frame and the transport reported Open after it.
   */
  lemma {:induction false} ReceivesOnlyWhileOpenAt<E>(sock: Socket, handle: seq<byte> -> Option<E>, i: nat)
    ensures i + 1 < Consumed(sock, Listen(sock, handle)) ==>
      sock.inbox[i].kind != Close && sock.inbox[i].stateAfter == Open
    decreases i
  {
    if sock.state == Open && |sock.inbox| > 0 {
      match ReadNextMessage(sock, handle)
      case Threw(_) =>
      case Stepped(next, step) =>
        var rest := Listen(next, handle);
        assert Listen(sock, handle).socket == rest.socket;
        assert Consumed(sock, Listen(sock, handle)) == 1 + Consumed(next, rest);
        ReceivesNeedOpen(next, handle);
        if 0 < i && i + 1 < Consumed(sock, Listen(sock, handle)) {
          ReceivesOnlyWhileOpenAt(next, handle, i - 1);
          assert sock.inbox[i] == next.inbox[i - 1];
        }
    }
  }

  /** Every receive but the last of a run left the socket Open and was not a Close frame. */
  lemma ReceivesOnlyWhileOpen<E>(sock: Socket, handle: seq<byte> -> Option<E>)
    ensures var r := Listen(sock, handle);
      forall i :: 0 <= i < Consumed(sock, r) - 1 ==>
        sock.inbox[i].kind != Close && sock.inbox[i].stateAfter == Open
  {
    var r := Listen(sock, handle);
    forall i | 0 <= i < Consumed(sock, r) - 1
      ensures sock.inbox[i].kind != Close && sock.inbox[i].stateAfter == Open
    {
      ReceivesOnlyWhileOpenAt(sock, handle, i);
    }
  }

  /** A Close step ends the run: every earlier step handled a payload, and the socket is left Closed. */
  lemma {:induction false} CloseIsLast<E>(sock: Socket, handle: seq<byte> -> Option<E>)
    ensures var r := Listen(sock, handle);
      forall i :: 0 <= i < |r.steps| - 1 ==> r.steps[i].Handled?
    ensures var r := Listen(sock, handle);
      |r.steps| > 0 && r.steps[|r.steps| - 1].Closing? ==> r.socket.state == Closed && r.halt == NotOpen
    decreases |sock.inbox|
  {
    if sock.state == Open && |sock.inbox| > 0 {
      match ReadNextMessage(sock, handle)
      case Threw(_) =>
      case Stepped(next, step) =>
        CloseIsLast(next, handle);
        var rest := Listen(next, handle);
        assert Listen(sock, handle).steps == [step] + rest.steps;
        if step.Closing? {
          assert rest.steps == [];
        }
    }
  }

  /** Prefixes steps already taken to a run. */
  function After<E>(done: seq<Step<E>>, r: Run<E>): Run<E> {
    Run(done + r.steps, r.socket, r.halt)
  }

  /**
   * The `while (ClientSocket.State == Open) ReadNextMessage()` loop of
   * `StartListening`, run step by step; it ends in the same run as `Listen`.
   */
  method StartListening<E>(sock: Socket, handle: seq<byte> -> Option<E>) returns (r: Run<E>)
    ensures r == Listen(sock, handle)
  {
    var current := sock;
    var done: seq<Step<E>> := [];
    while current.state == Open
      invariant Listen(sock, handle) == After(done, Listen(current, handle))
      decreases |current.inbox|
    {
      if |current.inbox| == 0 {
        return Run(done, current, Awaiting);
      }
      match ReadNextMessage(current, handle)
      case Threw(next) =>
        return Run(done, next, Faulted);
      case Stepped(next, step) =>
        assert Listen(current, handle) == After([step], Listen(next, handle));
        done := done + [step];
        current := next;
    }
    return Run(done, current, NotOpen);
  }

  /** Frames that the handler accepts and that keep the socket Open. */
  ghost predicate OpenDataFrames<E>(frames: seq<Frame>, handle: seq<byte> -> Option<E>) {
    forall i :: 0 <= i < |frames| ==>
      frames[i].kind != Close && frames[i].stateAfter == Open && handle(Payload(frames[i])).Some?
  }

  /** The steps N accepted data frames produce, in receive order. */
  function HandledSteps<E>(frames: seq<Frame>, handle: seq<byte> -> Option<E>): (steps: seq<Step<E>>)
    requires OpenDataFrames(frames, handle)
    ensures |steps| == |frames|
  {
    if |frames| == 0 then []
    else [Handled(Payload(frames[0]), handle(Payload(frames[0])).value)] + HandledSteps(frames[1..], handle)
  }

  /**
   * N data frames followed by a Close frame, on an Open socket: the handler
   * runs exactly N times, in receive order, then the socket is closed with
   * Normal Closure and the loop stops without receiving anything more.
   */
  lemma {:induction false} DataThenClose<E>(frames: seq<Frame>, close: Frame, later: seq<Frame>,
                                            handle: seq<byte> -> Option<E>)
    requires OpenDataFrames(frames, handle)
    requires close.kind == Close
    ensures Listen(Socket(Open, frames + [close] + later), handle)
         == Run(HandledSteps(frames, handle) + [Closing(NormalClosure, "")], Socket(Closed, later), NotOpen)
    decreases |frames|
  {
    var sock := Socket(Open, frames + [close] + later);
    if |frames| == 0 {
      assert sock.inbox[0] == close && sock.inbox[1..] == later;
      assert Listen(Socket(Closed, later), handle) == Run([], Socket(Closed, later), NotOpen);
    } else {
      assert sock.inbox[0] == frames[0];
      assert sock.inbox[1..] == frames[1..] + [close] + later;
      assert OpenDataFrames(frames[1..], handle) by {
        forall i | 0 <= i < |frames[1..]|
          ensures frames[1..][i].kind != Close && frames[1..][i].stateAfter == Open
          ensures handle(Payload(frames[1..][i])).Some?
        {
          assert frames[1..][i] == frames[i + 1];
        }
      }
      DataThenClose(frames[1..], close, later, handle);
    }
  }

  /** The bytes handed to the handler over a sequence of steps, in order. */
  function HandledBytes<E>(steps: seq<Step<E>>): seq<byte> {
    if |steps| == 0 then []
    else (if steps[0].Handled? then steps[0].payload else []) + HandledBytes(steps[1..])
  }

  lemma {:induction false} HandledBytesAppend<E>(a: seq<Step<E>>, b: seq<Step<E>>)
    ensures HandledBytes(a + b) == HandledBytes(a) + HandledBytes(b)
    decreases |a|
  {
    if |a| == 0 {
      assert a + b == b;
    } else {
      assert (a + b)[0] == a[0] && (a + b)[1..] == a[1..] + b;
      HandledBytesAppend(a[1..], b);
    }
  }

  /** The handled steps of accepted data frames carry exactly the bytes those frames delivered. */
  lemma {:induction false} HandledStepsCarryBytes<E>(frames: seq<Frame>, handle: seq<byte> -> Option<E>)
    requires OpenDataFrames(frames, handle)
    ensures HandledBytes(HandledSteps(frames, handle)) == Bytes(frames)
    decreases |frames|
  {
    if |frames| > 0 {
      assert OpenDataFrames(frames[1..], handle) by {
        forall i | 0 <= i < |frames[1..]|
          ensures frames[1..][i].kind != Close && frames[1..][i].stateAfter == Open
          ensures handle(Payload(frames[1..][i])).Some?
        {
          assert frames[1..][i] == frames[i + 1];
        }
      }
      HandledStepsCarryBytes(frames[1..], handle);
      var steps := HandledSteps(frames, handle);
      assert steps[0].payload == frames[0].bytes && steps[1..] == HandledSteps(frames[1..], handle);
    }
  }

  /**
   * The receive loop does not reassemble messages: a text message longer
   * than the buffer reaches the handler as several payloads, one per
   * receive, which together make up the message.
   */
  lemma MessageReachesHandlerInPieces<E>(message: seq<byte>, close: Frame, later: seq<Frame>,
                                         handle: seq<byte> -> Option<E>)
    requires OpenDataFrames(Receives(Text, message, Open), handle)
    requires close.kind == Close
    ensures var r := Listen(Socket(Open, Receives(Text, message, Open) + [close] + later), handle);
      && HandledBytes(r.steps) == message
      && |r.steps| == |Receives(Text, message, Open)| + 1
      && (|message| > BufferSize ==> |r.steps| > 2)
  {
    var frames := Receives(Text, message, Open);
    var steps := HandledSteps(frames, handle);
    DataThenClose(frames, close, later, handle);
    HandledStepsCarryBytes(frames, handle);
    HandledBytesAppend(steps, [Closing(NormalClosure, "")]);
    assert HandledBytes<E>([Closing(NormalClosure, "")]) == [];
  }

  /**
   * A data frame after which the transport reports Closed: the handler runs
   * once for it and the loop stops without another receive.
   */
  lemma DataThenStateClosed<E>(f: Frame, later: seq<Frame>, handle: seq<byte> -> Option<E>)
    requires f.kind != Close && f.stateAfter == Closed && handle(Payload(f)).Some?
    ensures Listen(Socket(Open, [f] + later), handle)
         == Run([Handled(Payload(f), handle(Payload(f)).value)], Socket(Closed, later), NotOpen)
  {
    var sock := Socket(Open, [f] + later);
    assert sock.inbox[0] == f && sock.inbox[1..] == later;
  }
}

=== FILE: wrappers.dfy ===
/** Optional values: `None` stands for the C# `null` reference. */
module Wrappers {

  datatype Option<+T> = None | Some(value: T) {

    /** The value, or `default` when there is none. */
    function GetOr(default: T): T {
      match this
      case Some(v) => v
      case None => default
    }
  }
}
